=== FILE: README.md ===
# Audiobook text preparation, modelled in Dafny

This project models the deterministic core of the audiobook creator, which turns PDF
pages into one MP3 file. It covers how a page range is resolved, how page texts are
joined, how the text is split into fixed-size chunks, how the optional translation
falls back, and which files a job writes, lists and removes. It also covers the checks
the desktop form runs before starting a job.

The repository holds two versions of `AudioBookCreator`:

- the **ffmpeg version** (first part of `gui-audio.py`, modelled in `ffmpeg_creator.dfy`).
  It skips pages without text and translates the whole text before splitting. It speaks
  each chunk with edge_tts into `temp_chunk_{i}.mp3` and writes `file_list.txt` with one
  `file '<name>'` line per chunk. It then runs ffmpeg and, in a `finally`, removes the
  temporary files and the list.
- the **pydub version** (`audio.py`, modelled in `pydub_creator.dfy`). In this version
  one page without text makes `text += None` raise, so the whole extraction returns
  `None`. Each chunk is spoken with gTTS. The output directory is created if it is
  missing. The segments are joined in chunk order into `<output_dir>/audiolibro.mp3`,
  and the temporary files are removed afterwards.

The two versions share `stages.dfy`: the early exit on an empty extraction and the
outcome of splitting.

The external libraries are inputs to the model, not code inside it. They are:

- pdfplumber: an `Option<Pdf>` whose pages are `Option<string>`;
- the translation service: a function returning `Option<string>`, with `None` meaning it raised;
- the speech services: a function returning `Option<Audio>`;
- ffmpeg: a three-way exit status;
- whether a directory exists: a predicate.

A job is a pure function that returns how `create_audiobook` ended and the ordered list
of effects it performed. `Files.ApplyAll` interprets those effects on a filesystem (a
map from path to content). This is how the cleanup and output properties are stated.

Python built-ins are modelled in their own modules:

- `range` with a positive step, and slice clamping (`pyrange.dfy`);
- `str.isspace`, `str.strip`, `str(n)` and `int(s)` (`pystr.dfy`);
- `os.path.join` (`pypath.dfy`).

Behaviours of the code worth knowing:

- The ffmpeg version translates the whole text once, before splitting.
- The ffmpeg version catches speech failures and keeps going, so a failed chunk still
  gets a list entry. The pydub version lets the failure escape and never cleans up.
- An empty page range does not fail. Extraction returns "" and `create_audiobook`
  returns quietly. The GUI then reports success.
- A page without text does not contribute "" in the pydub version: it makes the whole
  extraction `None`.
- Only the pydub version creates the output directory.
- Temporary names depend on the chunk index only, so two jobs in the same working
  directory use the same names.

## Model

| member | source | states |
|---|---|---|
| `PyRange.RangeElements` | gui-audio.py:44 | element k of `range(lo, hi, step)` is `lo + k*step`; all lie in `[lo, hi)`; the range is non-empty iff `lo < hi`, and one step past the last element reaches `hi` |
| `PyRange.RangeLength` | audio.py:38 | `range(lo, hi, step)` has ceil((hi-lo)/step) elements: n steps cover the interval, n-1 do not |
| `PyStr.StripEmptyIffBlank` | gui-audio.py:221 | `not value.strip()` holds exactly when every character is Python whitespace |
| `PyStr.IntStr` | gui-audio.py:229-230 | `int(str(n)) == n` for every natural n, so distinct numbers have distinct decimal strings |
| `PyStr.StrInjective` | gui-audio.py:78 | `str(a) == str(b)` only when `a == b` |
| `Chunking.SplitText` | gui-audio.py:42-44 | a zero chunk size raises (range step 0) and a negative one gives no chunks; for a positive size the chunks join back to the text exactly, there are none iff the text is empty, each has 1..size characters and all but the last exactly size |
| `Chunking.ChunksPartition` | gui-audio.py:44 | joining the chunks in order gives back the text exactly |
| `Chunking.ChunkOffsets` | gui-audio.py:44 | chunk k is `text[k*size : k*size+size]`, the window the comprehension takes at offset `k*size` |
| `Chunking.ChunkLengths` | audio.py:36-38 | all chunks but the last have exactly `size` characters and the last has 1..size; there are no chunks exactly when the text is empty |
| `Chunking.ChunkCount` | audio.py:38 | the number of chunks is ceil(len/size): that many windows cover the text and one fewer do not |
| `Chunking.ChunkBounds` | audio.py:38 | no chunk is empty and none is longer than the chunk size |
| `Pages.ResolveRange` | gui-audio.py:28-31 | a missing start becomes 0; a missing end, or one past the page count, becomes the page count; other values are kept; the end never exceeds the page count |
| `Pages.ResolvedPagesInBounds` | audio.py:24-29 | the loop visits exactly `start, start+1, ..., end-1`, in ascending order, and every visited index is a page of the PDF |
| `Pages.TextOfPagesIsConcatenation` | gui-audio.py:33-36 | the skip-empty loop's text is the in-order concatenation of the page texts, with `None` pages contributing nothing |
| `Pages.RangeTextsConcatenation` | gui-audio.py:33-37 | over a resolved range, the extracted text is the concatenation of the texts of pages start..end-1; an empty range gives "" |
| `Pages.StrictJoinFailsOnTextless` | audio.py:29-30 | `text += page` fails exactly when some visited page has no text, and otherwise agrees with the skipping join |
| `Pages.StrictRangeText` | audio.py:29-34 | over a resolved range, extraction yields `None` iff some page in the range has no text, else the in-order concatenation |
| `Translation.TranslateText` | gui-audio.py:46-55 | identity when translation is off; the service's answer when it succeeds; the input unchanged when the service raises |
| `Files.TempNames` | gui-audio.py:77-80 | `temp_chunk_{i}.mp3` names are distinct for distinct i and contain no quote or line break |
| `Files.OutputIsNotTemp` | gui-audio.py:89 | `os.path.join(output_dir, "audiolibro.mp3")` never equals a temporary chunk name |
| `Files.RemovalsClear` | gui-audio.py:105-111 | after removing a list of paths none of them exists, and every other file is untouched |
| `Manifest.ListRoundTrip` | gui-audio.py:82-86 | the list file has one line per name, and reading it back gives exactly the names written, in order |
| `FfmpegCreator.ExtractText` | gui-audio.py:20-40 | extraction yields `None` exactly when the PDF cannot be opened |
| `FfmpegCreator.ExtractTextFromPdf` | gui-audio.py:22-37 | the loop over `range(start, end)` returns the concatenation of the texts of the resolved pages, skipping textless ones; `None` when the PDF cannot be opened |
| `FfmpegCreator.ExtractTextOfRange` | gui-audio.py:28-37 | from an opened PDF, extraction is the in-order concatenation of the texts of the resolved range, textless pages counting as "" |
| `FfmpegCreator.Prepare` | gui-audio.py:67-73 | stops iff the text is `None` or ""; splitting fails iff the chunk size is 0; for a positive size the chunks are `split_text` of the translated text, no chunks for a negative size; they join to the translated text, and to the extracted text when translation is off; each chunk has 1..size characters |
| `FfmpegCreator.CreateAudiobook` | gui-audio.py:65-73 | it ends with `NoText` exactly when nothing was extracted, and then performs no effect; with text, a chunk size of 0 raises before any effect and a negative size runs the rest of the job with no chunks; a saved job's path is `<output_dir>/audiolibro.mp3` |
| `FfmpegCreator.Assemble` | gui-audio.py:74-111 | one effect per chunk, the list file, the ffmpeg run, then one removal per temporary file and one for the list; ffmpeg's success, non-zero exit and failure to start give `Saved`, `ConcatFailed` and `Raised`; the last removal is the list file |
| `FfmpegCreator.ChunksSpokenInOrder` | gui-audio.py:74-80 | effect i speaks chunk i into `temp_chunk_{i}.mp3`, in chunk order, on distinct files, holding the audio the speech service returned for that chunk; a speech failure is recorded and the loop continues |
| `FfmpegCreator.ListFileNamesChunks` | gui-audio.py:82-98 | after the chunks, `file_list.txt` is written, and it parses back to exactly the temporary names in chunk order; then the ffmpeg command that reads it and writes the output runs |
| `FfmpegCreator.AudiobookSpeaksTranslatedChunks` | gui-audio.py:65-111 | end to end: with text extracted and a positive size, the job speaks exactly the chunks of the translated text, chunk i into `temp_chunk_{i}.mp3`, writes a list naming those files in order, runs ffmpeg on the output path and removes the temporary files and the list |
| `FfmpegCreator.CleanupAlways` | gui-audio.py:100-111 | for each ffmpeg outcome (success, non-zero exit, not started), the job ends by removing `audio_files + [list_file]`, after which none of them exists |
| `PydubCreator.ExtractText` | audio.py:15-34 | `None` when the PDF cannot be opened or some page in range has no text; otherwise every page text of the range in order |
| `PydubCreator.ExtractTextFromPdf` | audio.py:17-34 | the loop as written, leaving with `None` at the first textless page, equals the extraction above |
| `PydubCreator.Prepare` | audio.py:41-46 | stops iff the text is `None` or ""; splitting fails iff the chunk size is 0; for a positive size the chunks are `split_text` of the extracted text and join back to it, no chunks for a negative size |
| `PydubCreator.CreateAudiobook` | audio.py:40-46 | it ends with `NoText` exactly when nothing was extracted, and then performs no effect; with text, a chunk size of 0 raises before any effect and a negative size runs the rest of the job with no chunks; a saved job's path is `<output_dir>/audiolibro.mp3` |
| `PydubCreator.FirstFailure` | audio.py:49-53 | the index of the first chunk gTTS fails on; every earlier chunk was spoken |
| `PydubCreator.CombineSegments` | audio.py:60-62 | starting from empty and appending each segment gives the segments concatenated in chunk order, with the sum of their lengths |
| `PydubCreator.Assemble` | audio.py:46-71 | the job raises exactly when gTTS fails on some chunk k, after saving chunks 0..k-1 to their files and failing on chunk k; otherwise it saves chunk i to `temp_chunk_{i}.mp3` with its audio for every i, then runs `makedirs` only when the directory is missing, then exports the segments joined in chunk order to `<output_dir>/audiolibro.mp3`, then removes exactly the temporary files in order |
| `PydubCreator.SavedJob` | audio.py:49-71 | a saved job spoke every chunk; it creates the output directory exactly when it was missing; afterwards the output holds the segments in chunk order and no temporary file remains |
| `PydubCreator.SavedJobFrame` | audio.py:46-71 | a saved job touches no file but the output and the temporary files: any other file exists afterwards iff it did before, with the same content |
| `PydubCreator.SavedAudiobook` | audio.py:40-71 | end to end: a saved job had text and a non-zero size, spoke every chunk of `split_text` of the extracted text, and the output holds their audio joined in chunk order, with no temporary file left |
| `PydubCreator.AudiobookOfChunks` | audio.py:40-71 | end to end, the converse: with text extracted and a positive size, the job assembles exactly `split_text` of that text, and it is saved iff gTTS speaks every chunk |
| `PydubCreator.FailedJobLeavesTempFiles` | audio.py:49-53 | when gTTS fails at chunk k, the files of chunks 0..k-1 stay with their audio, and nothing is exported or removed |
| `Gui.FirstBlankField` | gui-audio.py:220-224 | returns the message of the first field whose value strips to "", or none when every field has content |
| `Gui.ValidateInputs` | gui-audio.py:215-224 | a blank PDF path is reported first; otherwise a blank output directory; valid iff neither is blank |
| `Gui.ParsePageEntry` | gui-audio.py:229-230 | "" is no page; a string of digits is the page `int()` reads |
| `Gui.ParsePageEntryOfStr` | gui-audio.py:230 | a page typed as its decimal string is read back as that number |
| `Gui.StartProcessing` | gui-audio.py:200-246 | nothing runs iff validation fails, and then the message shown is that of the first blank field; a page field that is not a number gives an error report and no effect; otherwise success is reported exactly when `create_audiobook` does not raise, and the effects are those of `create_audiobook` on the creator built from the form |
| `Gui.SuccessReportedWithoutAudio` | gui-audio.py:240-243 | success is reported when nothing was extracted (and no effect happened) and when ffmpeg exits non-zero |
| `Gui.SpinboxValueIsZeroBased` | gui-audio.py:159-162 | spinbox values are used as 0-based indices: no page below the start is read, and a start of "1" skips the first page |
| `Scenarios.MainJob` | audio.py:87-92 | the configured client gives a creator with start 9, end 12 and the default chunk size 500 |
| `Scenarios.PagesNineToTwelve` | audio.py:80-92 | that job on a 20-page PDF reads pages 9, 10 and 11 |
| `Scenarios.EndPastLastPage` | audio.py:26-27 | an end past the last page is clamped, so fewer pages are read |
| `Scenarios.TwelveHundredCharacters` | audio.py:8 | 1200 characters with the default chunk size 500 give chunks of 500, 500 and 200 |

## Left out

- pdfplumber, edge_tts, gTTS, googletrans and ffmpeg are not modelled. They are parameters of the model, and their results are arbitrary. pydub's decoding is folded into the speech parameter: the audio a chunk's file decodes to is taken to be the audio the speech service returned for it.
- A page whose `extract_text()` raises is not modelled. Page texts are only text or `None`. Both versions would catch the exception and return `None`, as they do for an unreadable PDF.
- The file ffmpeg writes is not tracked in the filesystem model: running the command changes no file there. Directories are not tracked either, so `os.makedirs` appears only as an effect.
- Errors from writing the list file, from `makedirs` and from pydub's export are not modelled. Neither is a gTTS save that fails after writing part of a file; the model treats it as writing nothing.
- Paths are compared as strings, with no normalisation: `./a` and `a` are different files in the model.
- `PyPath.Join`: follows POSIX `os.path.join`. Windows `ntpath` rules, with `\` separators and drive letters, are not modelled, although the playback helper uses the Windows `start` command.
- `Gui.ParsePageEntry`: only strings of ASCII digits are read as numbers. Every other non-empty string is treated as the `ValueError` case. Python's `int()` also accepts surrounding whitespace, a sign, `_` between digits and non-ASCII digits.
- Negative page numbers are not modelled. Python would index pages from the end. Page numbers are `nat` because the spinbox arrows give only 1..9999 and the hard-coded job uses 9 and 12; a negative value typed into a spinbox by hand is out of scope.
- `Gui.StartProcessing`: a page field typed as a negative number, such as "-1", is an error report in the model. In the program `int()` reads it as -1, and the job runs. A start of -1 makes `range(-1, end)` read `pdf.pages[-1]` (the last page) first and then pages 0..end-1, so with the end field empty the last page is read twice. An end of -1 is not above the page count, so it is kept: `range(start, -1)` is empty when start >= 0, extraction returns "", `create_audiobook` returns at once and success is reported.
- `PydubCreator.CombineSegments`: joining is exact sample concatenation. pydub first harmonises channels, frame rate and sample width before appending, and that conversion is not modelled.
- `PydubCreator.SavedJob`: assumes every `AudioSegment.from_mp3` succeeds and every `os.remove` succeeds. In the program a failing `from_mp3` raises after every temporary file is written, so nothing is exported and nothing is removed. A failing `os.remove` escapes after the export and leaves the remaining temporary files.
- `FfmpegCreator.CleanupAlways`: "no temporary file remains" assumes every `os.remove` succeeds. The program catches a failing removal, prints it and goes on to the next file, so that file stays.
- Overwriting `self.start_page` / `self.end_page` during extraction is not modelled, because each creator extracts only once.
- Printed and logged messages, the tkinter layout, dialogs, message boxes and progress bar are not modelled. Neither are `browse_pdf` / `browse_output_dir`, `play_audiobook` (`os.system("start …")`) and `process_client`'s call to it: these are UI and OS side effects.
- `threading` in both drivers and `asyncio.run` around edge_tts are not modelled. Each job is modelled alone; two concurrent jobs sharing the working-directory names `temp_chunk_{i}.mp3` and `file_list.txt` would collide, and that is outside a single-job model.
- The translation's quality and language detection (`src='auto'`) are not modelled. Only the fallback behaviour is.

=== FILE: chunking.dfy ===
/** `AudioBookCreator.split_text`, identical in both versions of the program:
    `[text[i:i+chunk_size] for i in range(0, len(text), chunk_size)]`. */
module Chunking {
  import opened Wrappers
  import opened Seqs
  import opened PyRange

  /** The windows the comprehension produces, for the start offsets `starts`. */
  function Windows(text: string, starts: seq<nat>, size: nat): (r: seq<string>)
    ensures |r| == |starts|
  {
    seq(|starts|, k requires 0 <= k < |starts| => Slice(text, starts[k], starts[k] + size))
  }

  /** `split_text` for a positive `chunk_size`. */
  function Chunks(text: string, size: nat): seq<string>
    requires size > 0
  {
    Windows(text, Range(0, |text|, size), size)
  }

  /** `split_text` for any integer `chunk_size`: `range` raises `ValueError` for a zero
      step (`None` here) and is empty for a negative one. */
  function SplitText(text: string, chunkSize: int): (r: Option<seq<string>>)
    ensures r.None? <==> chunkSize == 0
    ensures chunkSize < 0 ==> r == Some([])
    ensures chunkSize > 0 ==> r == Some(Chunks(text, chunkSize))
    ensures chunkSize > 0 ==> Flatten(r.value) == text
    ensures chunkSize > 0 ==> (r.value == [] <==> text == "")
    ensures chunkSize > 0 ==> forall k :: 0 <= k < |r.value| ==> 0 < |r.value[k]| <= chunkSize
    ensures chunkSize > 0 ==> forall k :: 0 <= k < |r.value| - 1 ==> |r.value[k]| == chunkSize
  {
    if chunkSize == 0 then None
    else if chunkSize < 0 then Some([])
    else
      ChunksPartition(text, chunkSize);
      ChunkLengths(text, chunkSize);
      Some(Chunks(text, chunkSize))
  }

  /** The windows starting at `lo, lo + size, ...` concatenate to `text[lo..]`. */
  lemma {:induction false} WindowsFlatten(text: string, lo: nat, size: nat)
    requires size > 0 && lo <= |text|
    ensures Flatten(Windows(text, Range(lo, |text|, size), size)) == text[lo..]
    decreases |text| - lo
  {
    var w := Windows(text, Range(lo, |text|, size), size);
    if lo < |text| {
      var rest := Range(lo + size, |text|, size);
      var w' := Windows(text, rest, size);
      assert w == [Slice(text, lo, lo + size)] + w';
      FlattenCons(Slice(text, lo, lo + size), w');
      if lo + size < |text| {
        WindowsFlatten(text, lo + size, size);
        assert text[lo..] == text[lo..lo + size] + text[lo + size..];
      } else {
        assert w' == [];
      }
    }
  }

  /** Joining the chunks gives back the text exactly: the chunks partition it. */
  lemma ChunksPartition(text: string, size: nat)
    requires size > 0
    ensures Flatten(Chunks(text, size)) == text
  {
    WindowsFlatten(text, 0, size);
  }

  /** Chunk `k` is the slice of `size` characters starting at `k * size`. */
  lemma ChunkOffsets(text: string, size: nat)
    requires size > 0
    ensures forall k :: 0 <= k < |Chunks(text, size)| ==> Chunks(text, size)[k] == Slice(text, k * size, k * size + size)
  {
    RangeElements(0, |text|, size);
  }

  /** Every chunk but the last has exactly `size` characters, the last one between 1
      and `size`; empty text, and only empty text, gives no chunks. */
  lemma ChunkLengths(text: string, size: nat)
    requires size > 0
    ensures var c := Chunks(text, size);
      && (c == [] <==> text == "")
      && (forall k :: 0 <= k < |c| - 1 ==> |c[k]| == size)
      && (|c| > 0 ==> 1 <= |c[|c| - 1]| <= size)
  {
    var c := Chunks(text, size);
    var st := Range(0, |text|, size);
    RangeElements(0, |text|, size);
    forall k | 0 <= k < |c| - 1
      ensures |c[k]| == size
    {
      assert st[k + 1] == st[k] + size;
    }
  }

  /** There are ceil(|text| / size) chunks: that many windows of `size` cover the text,
      one fewer does not. */
  lemma ChunkCount(text: string, size: nat)
    requires size > 0
    ensures |text| > 0 ==> (|Chunks(text, size)| - 1) * size < |text| <= |Chunks(text, size)| * size
  {
    RangeLength(0, |text|, size);
  }

  /** No chunk is empty and none is longer than `size`. */
  lemma ChunkBounds(text: string, size: nat)
    requires size > 0
    ensures forall k :: 0 <= k < |Chunks(text, size)| ==> 0 < |Chunks(text, size)[k]| <= size
  {
    ChunkLengths(text, size);
  }
}

=== FILE: ffmpeg_creator.dfy ===
/** The edge_tts / ffmpeg version of `AudioBookCreator` (the first part of
    gui-audio.py): pages without text are skipped, the whole text is translated before
    it is split, every chunk is spoken into `temp_chunk_{i}.mp3`, ffmpeg joins the files
    listed in `file_list.txt`, and the temporary files are removed in a `finally`. */
module FfmpegCreator {
  import opened Wrappers
  import opened Seqs
  import opened Pages
  import opened Chunking
  import opened Stages
  import opened Translation
  import opened Files
  import opened Manifest

  /** The constructor's arguments. */
  datatype Config = Config(
    pdfFile: string,
    outputDir: string,
    startPage: Option<nat>,
    endPage: Option<nat>,
    chunkSize: int,
    translate: bool,
    targetLanguage: string)

  /** A creator built with the constructor defaults `chunk_size=500` and
      `target_language='es'`. */
  function DefaultConfig(pdfFile: string, outputDir: string, startPage: Option<nat>, endPage: Option<nat>, translate: bool): (c: Config)
    ensures c.chunkSize == 500 && c.targetLanguage == "es"
  {
    Config(pdfFile, outputDir, startPage, endPage, 500, translate, "es")
  }

  /** How the ffmpeg subprocess ends: exit status 0, a non-zero status
      (`CalledProcessError`, caught), or it could not be started at all (an exception
      the `except` does not catch). */
  datatype ConcatStatus = ExitedZero | ExitedNonZero | NotLaunched

  /** The outside world: opening the PDF (`None` when pdfplumber raises), the
      translation service, the speech service (`None` when it raises) and ffmpeg. */
  datatype Services = Services(
    open: string -> Option<Pdf>,
    translator: Translator,
    speak: (string, string) -> Option<Audio>,
    concat: ConcatStatus)

  /** The voice every chunk is spoken with. */
  const Voice := "es-ES-AlvaroNeural"

  /** The concat list file, written in the working directory. */
  const ListFile := "file_list.txt"

  /** How `create_audiobook` ends. */
  datatype Ending =
    | NoText          // nothing extracted: it returns at once
    | Saved(path: string)
    | ConcatFailed    // ffmpeg exited non-zero; the error is printed and it returns
    | Raised          // an exception leaves `create_audiobook`

  datatype Job = Job(ending: Ending, effects: seq<Effect>)

  /** What `extract_text_from_pdf` returns: `None` when the PDF cannot be opened,
      otherwise the texts of the pages in the resolved range, in order, with textless
      pages contributing nothing. */
  function ExtractText(cfg: Config, doc: Option<Pdf>): (r: Option<string>)
    ensures r.None? <==> doc.None?
  {
    match doc
    case None => None
    case Some(pdf) =>
      ResolvedPagesInBounds(cfg.startPage, cfg.endPage, |pdf.pages|);
      Some(TextOfPages(pdf, PagesRead(ResolveRange(cfg.startPage, cfg.endPage, |pdf.pages|))))
  }

  /** The extraction loop as written: `for i in range(start, end)`, appending each page
      text that is neither `None` nor "". */
  method ExtractTextFromPdf(cfg: Config, doc: Option<Pdf>) returns (text: Option<string>)
    ensures doc.None? ==> text.None?
    ensures doc.Some? ==> (text.Some? &&
      text.value == Flatten(RangeTexts(doc.value, ResolveRange(cfg.startPage, cfg.endPage, |doc.value.pages|))))
    ensures text == ExtractText(cfg, doc)
  {
    if doc.None? {
      return None;
    }
    var pdf := doc.value;
    var total := |pdf.pages|;
    var start := if cfg.startPage.None? then 0 else cfg.startPage.value;
    var end := if cfg.endPage.None? || cfg.endPage.value > total then total else cfg.endPage.value;
    var acc := "";
    var i := start;
    while i < end
      invariant start <= i && (i <= end || i == start)
      invariant end <= total
      invariant acc == Flatten(RangeTexts(pdf, PageRange(start, i)))
      decreases end - i
    {
      var pageText := pdf.pages[i];
      RangeTextsSnoc(pdf, start, i);
      if pageText.Some? && pageText.value != "" {
        acc := acc + pageText.value;
      }
      i := i + 1;
    }
    text := Some(acc);
    ghost var r := ResolveRange(cfg.startPage, cfg.endPage, total);
    if start >= end {
      assert RangeTexts(pdf, PageRange(start, i)) == RangeTexts(pdf, r);
    }
    ExtractTextOfRange(cfg, pdf);
  }

  /** Extraction from an opened PDF is the concatenation of the texts of the resolved
      range, in order. */
  lemma ExtractTextOfRange(cfg: Config, pdf: Pdf)
    ensures ExtractText(cfg, Some(pdf)) == Some(Flatten(RangeTexts(pdf, ResolveRange(cfg.startPage, cfg.endPage, |pdf.pages|))))
  {
    RangeTextsConcatenation(pdf, ResolveRange(cfg.startPage, cfg.endPage, |pdf.pages|));
  }

  /** Extraction, the early exit, translation of the whole text, then splitting. The
      chunks join back to the translated text, and with translation off to the
      extracted text itself. */
  function Prepare(cfg: Config, s: Services): (r: Prepared)
    ensures var text := ExtractText(cfg, s.open(cfg.pdfFile));
      && (r.NothingExtracted? <==> NoTextToRead(text))
      && (r.SplitFailed? <==> !NoTextToRead(text) && cfg.chunkSize == 0)
      && (r.Ready? && cfg.chunkSize < 0 ==> r.chunks == [])
      && (r.Ready? && cfg.chunkSize > 0 ==>
            r.chunks == Chunks(TranslateText(cfg.translate, s.translator, cfg.targetLanguage, text.value), cfg.chunkSize))
      && (r.Ready? && cfg.chunkSize > 0 ==>
            Flatten(r.chunks) == TranslateText(cfg.translate, s.translator, cfg.targetLanguage, text.value))
      && (r.Ready? && cfg.chunkSize > 0 && !cfg.translate ==> Flatten(r.chunks) == text.value)
      && (r.Ready? && cfg.chunkSize > 0 ==> forall k :: 0 <= k < |r.chunks| ==> 0 < |r.chunks[k]| <= cfg.chunkSize)
  {
    var text := ExtractText(cfg, s.open(cfg.pdfFile));
    if NoTextToRead(text) then NothingExtracted
    else
      var translated := TranslateText(cfg.translate, s.translator, cfg.targetLanguage, text.value);
      match SplitText(translated, cfg.chunkSize)
      case None => SplitFailed
      case Some(chunks) =>
        if cfg.chunkSize > 0 then
          ChunksPartition(translated, cfg.chunkSize);
          ChunkBounds(translated, cfg.chunkSize);
          Ready(chunks)
        else Ready(chunks)
  }

  /** The effect of speaking chunk `i` into its temporary file; `text_to_speech` catches
      a failure of the service, so the loop goes on either way. */
  function SpeakChunk(chunks: seq<string>, i: nat, speak: (string, string) -> Option<Audio>): Effect
    requires i < |chunks|
  {
    match speak(chunks[i], Voice)
    case Some(a) => Synthesized(TempName(i), chunks[i], a)
    case None => SynthesisFailed(TempName(i), chunks[i])
  }

  /** The ffmpeg command line. */
  function ConcatCommand(output: string): seq<string> {
    ["ffmpeg", "-f", "concat", "-safe", "0", "-i", ListFile, "-c", "copy", output, "-y"]
  }

  /** Everything after splitting: speak each chunk, write the list file, run ffmpeg,
      and in the `finally` remove `audio_files + [list_file]`. */
  function Assemble(outputDir: string, chunks: seq<string>, s: Services): (job: Job)
    ensures |job.effects| == 2 * |chunks| + 3
    ensures job.ending == Saved(OutputPath(outputDir)) <==> s.concat == ExitedZero
    ensures job.ending == ConcatFailed <==> s.concat == ExitedNonZero
    ensures job.ending == Raised <==> s.concat == NotLaunched
    ensures job.ending != NoText
    ensures job.effects[2 * |chunks| + 2] == Removed(ListFile)
  {
    var n := |chunks|;
    var files := TempFiles(n);
    var output := OutputPath(outputDir);
    var speaking := seq(n, i requires 0 <= i < n => SpeakChunk(chunks, i, s.speak));
    var ending := match s.concat
      case ExitedZero => Saved(output)
      case ExitedNonZero => ConcatFailed
      case NotLaunched => Raised;
    Job(ending, speaking + [WroteText(ListFile, ListContent(files)), Ran(ConcatCommand(output))]
                + Removals(files + [ListFile]))
  }

  /** `create_audiobook`. It returns before touching any file when nothing was
      extracted, and stops before speaking anything when splitting raises. */
  function CreateAudiobook(cfg: Config, s: Services): (job: Job)
    ensures job.ending == NoText <==> NoTextToRead(ExtractText(cfg, s.open(cfg.pdfFile)))
    ensures job.ending == NoText ==> job.effects == []
    ensures job.ending == Raised && cfg.chunkSize == 0 ==> job.effects == []
    ensures !NoTextToRead(ExtractText(cfg, s.open(cfg.pdfFile))) && cfg.chunkSize == 0 ==> job == Job(Raised, [])
    ensures !NoTextToRead(ExtractText(cfg, s.open(cfg.pdfFile))) && cfg.chunkSize < 0 ==> job == Assemble(cfg.outputDir, [], s)
    ensures job.ending.Saved? ==> job.ending.path == OutputPath(cfg.outputDir)
  {
    match Prepare(cfg, s)
    case NothingExtracted => Job(NoText, [])
    case SplitFailed => Job(Raised, [])
    case Ready(chunks) => Assemble(cfg.outputDir, chunks, s)
  }

  /** Chunk `i` is spoken, in chunk order, into its own file `temp_chunk_{i}.mp3`; a
      speech failure is recorded and the next chunk is still spoken. */
  lemma ChunksSpokenInOrder(outputDir: string, chunks: seq<string>, s: Services)
    ensures var job := Assemble(outputDir, chunks, s);
      && |job.effects| == 2 * |chunks| + 3
      && (forall i :: 0 <= i < |chunks| ==>
            && (job.effects[i].Synthesized? || job.effects[i].SynthesisFailed?)
            && job.effects[i].path == TempName(i)
            && job.effects[i].text == chunks[i]
            && (job.effects[i].Synthesized? <==> s.speak(chunks[i], Voice).Some?)
            && (job.effects[i].Synthesized? ==> job.effects[i].audio == s.speak(chunks[i], Voice).value))
      && (forall i, j :: 0 <= i < j < |chunks| ==> job.effects[i].path != job.effects[j].path)
  {
    forall i, j | 0 <= i < j < |chunks|
      ensures TempName(i) != TempName(j)
    {
      TempNames(i, j);
    }
  }

  /** The list file is written after every chunk and before ffmpeg runs; read back, it
      names each temporary file once, in chunk order. The command reads that list and
      writes the output path. */
  lemma ListFileNamesChunks(outputDir: string, chunks: seq<string>, s: Services)
    ensures var job := Assemble(outputDir, chunks, s);
      var n := |chunks|;
      && job.effects[n].WroteText?
      && job.effects[n].path == ListFile
      && ParseList(job.effects[n].content) == Some(TempFiles(n))
      && |Lines(job.effects[n].content)| == n
      && job.effects[n + 1] == Ran(ConcatCommand(OutputPath(outputDir)))
  {
    var files := TempFiles(|chunks|);
    forall i | 0 <= i < |files|
      ensures '\n' !in files[i]
    {
      TempNames(i, i);
    }
    ListRoundTrip(files);
  }

  /** Whatever ffmpeg does (each of its three outcomes gives its own ending), the job
      ends by removing every temporary file and the list file: afterwards none of them
      exists, starting from any filesystem. */
  lemma CleanupAlways(outputDir: string, chunks: seq<string>, s: Services, fs: FileSystem)
    ensures var job := Assemble(outputDir, chunks, s);
      var n := |chunks|;
      var after := ApplyAll(fs, job.effects);
      && (job.ending == Saved(OutputPath(outputDir)) <==> s.concat == ExitedZero)
      && (job.ending == ConcatFailed <==> s.concat == ExitedNonZero)
      && (job.ending == Raised <==> s.concat == NotLaunched)
      && job.effects[n + 2..] == Removals(TempFiles(n) + [ListFile])
      && ListFile !in after
      && (forall i :: 0 <= i < n ==> TempName(i) !in after)
  {
    var job := Assemble(outputDir, chunks, s);
    var n := |chunks|;
    var paths := TempFiles(n) + [ListFile];
    assert job.effects == job.effects[..n + 2] + Removals(paths);
    ApplyAllAppend(fs, job.effects[..n + 2], Removals(paths));
    RemovalsClear(ApplyAll(fs, job.effects[..n + 2]), paths);
    assert ListFile in paths;
    assert forall i :: 0 <= i < n ==> paths[i] == TempName(i);
  }

  /** End to end: once some text was extracted and the size is positive, the job
      speaks exactly the chunks of the translated text, chunk `i` into
      `temp_chunk_{i}.mp3`, lists those files in order for ffmpeg, runs it on the output
      path and removes the temporary files and the list. */
  lemma AudiobookSpeaksTranslatedChunks(cfg: Config, s: Services)
    requires !NoTextToRead(ExtractText(cfg, s.open(cfg.pdfFile))) && cfg.chunkSize > 0
    ensures var text := ExtractText(cfg, s.open(cfg.pdfFile)).value;
      var chunks := Chunks(TranslateText(cfg.translate, s.translator, cfg.targetLanguage, text), cfg.chunkSize);
      var job := CreateAudiobook(cfg, s);
      var n := |chunks|;
      && (job.ending == Saved(OutputPath(cfg.outputDir)) <==> s.concat == ExitedZero)
      && |job.effects| == 2 * n + 3
      && (forall i :: 0 <= i < n ==>
            && job.effects[i].path == TempName(i)
            && job.effects[i].text == chunks[i]
            && (job.effects[i].Synthesized? <==> s.speak(chunks[i], Voice).Some?)
            && (job.effects[i].Synthesized? ==> job.effects[i].audio == s.speak(chunks[i], Voice).value))
      && job.effects[n].WroteText? && job.effects[n].path == ListFile
      && ParseList(job.effects[n].content) == Some(TempFiles(n))
      && job.effects[n + 1] == Ran(ConcatCommand(OutputPath(cfg.outputDir)))
      && job.effects[n + 2..] == Removals(TempFiles(n) + [ListFile])
  {
    var chunks := Prepare(cfg, s).chunks;
    ChunksSpokenInOrder(cfg.outputDir, chunks, s);
    ListFileNamesChunks(cfg.outputDir, chunks, s);
    CleanupAlways(cfg.outputDir, chunks, s, map[]);
  }
}

=== FILE: files.dfy ===
/** The files a job touches: the effects it performs, a filesystem they act on, and the
    fixed names both versions of `create_audiobook` use. */
module Files {
  import opened PyStr
  import opened PyPath

  /** Decoded audio: a sequence of samples. */
  type Audio = seq<int>

  datatype Content = TextFile(text: string) | AudioFile(audio: Audio)

  /** Path to content; directories are not tracked. */
  type FileSystem = map<string, Content>

  /** What a job did, in order. */
  datatype Effect =
    | Synthesized(path: string, text: string, audio: Audio)  // speech for `text` saved at `path`
    | SynthesisFailed(path: string, text: string)            // the speech service raised; nothing saved
    | WroteText(path: string, content: string)               // a text file written
    | Ran(argv: seq<string>)                                 // a subprocess started or attempted
    | MadeDirs(dir: string)                                  // `os.makedirs(dir)`
    | Exported(path: string, audio: Audio)                   // combined audio written
    | Removed(path: string)                                  // `os.remove(path)` attempted

  /** The filesystem after one effect. Removing a missing file changes nothing. */
  function Apply(fs: FileSystem, e: Effect): FileSystem {
    match e
    case Synthesized(p, _, a) => fs[p := AudioFile(a)]
    case WroteText(p, c) => fs[p := TextFile(c)]
    case Exported(p, a) => fs[p := AudioFile(a)]
    case Removed(p) => fs - {p}
    case _ => fs
  }

  /** The filesystem after the effects `es`, in order. */
  function ApplyAll(fs: FileSystem, es: seq<Effect>): FileSystem
    decreases |es|
  {
    if |es| == 0 then fs else ApplyAll(Apply(fs, es[0]), es[1..])
  }

  lemma {:induction false} ApplyAllAppend(fs: FileSystem, a: seq<Effect>, b: seq<Effect>)
    ensures ApplyAll(fs, a + b) == ApplyAll(ApplyAll(fs, a), b)
    decreases |a|
  {
    if |a| > 0 {
      assert (a + b)[1..] == a[1..] + b;
      ApplyAllAppend(Apply(fs, a[0]), a[1..], b);
    } else {
      assert a + b == b;
    }
  }

  /** Whether `e` writes or removes the file `p`. */
  predicate Touches(e: Effect, p: string) {
    match e
    case Synthesized(q, _, _) => q == p
    case WroteText(q, _) => q == p
    case Exported(q, _) => q == p
    case Removed(q) => q == p
    case _ => false
  }

  /** Effects that do not touch `p` leave it as it was. */
  lemma {:induction false} Untouched(fs: FileSystem, es: seq<Effect>, p: string)
    requires forall j :: 0 <= j < |es| ==> !Touches(es[j], p)
    ensures p in ApplyAll(fs, es) <==> p in fs
    ensures p in fs ==> ApplyAll(fs, es)[p] == fs[p]
    decreases |es|
  {
    if |es| > 0 {
      Untouched(Apply(fs, es[0]), es[1..], p);
    }
  }

  /** `e` writes `c` to `p`. */
  predicate Writes(e: Effect, p: string, c: Content) {
    match e
    case Synthesized(q, _, a) => q == p && c == AudioFile(a)
    case WroteText(q, t) => q == p && c == TextFile(t)
    case Exported(q, a) => q == p && c == AudioFile(a)
    case _ => false
  }

  /** The last write of `p` decides what it holds at the end. */
  lemma {:induction false} LastWriteWins(fs: FileSystem, es: seq<Effect>, j: nat, p: string, c: Content)
    requires j < |es| && Writes(es[j], p, c)
    requires forall m :: j < m < |es| ==> !Touches(es[m], p)
    ensures p in ApplyAll(fs, es) && ApplyAll(fs, es)[p] == c
    decreases |es|
  {
    if j == 0 {
      Untouched(Apply(fs, es[0]), es[1..], p);
    } else {
      LastWriteWins(Apply(fs, es[0]), es[1..], j - 1, p, c);
    }
  }

  /** One `os.remove` per path, in order. */
  function Removals(paths: seq<string>): (r: seq<Effect>)
    ensures |r| == |paths|
  {
    seq(|paths|, i requires 0 <= i < |paths| => Removed(paths[i]))
  }

  /** After the removals none of `paths` exists, and every other file is untouched. */
  lemma {:induction false} RemovalsClear(fs: FileSystem, paths: seq<string>)
    ensures forall p :: p in paths ==> p !in ApplyAll(fs, Removals(paths))
    ensures forall p :: p !in paths && p in fs ==> p in ApplyAll(fs, Removals(paths)) && ApplyAll(fs, Removals(paths))[p] == fs[p]
    ensures forall p :: p !in fs ==> p !in ApplyAll(fs, Removals(paths))
    decreases |paths|
  {
    if |paths| > 0 {
      assert Removals(paths)[1..] == Removals(paths[1..]);
      RemovalsClear(fs - {paths[0]}, paths[1..]);
    }
  }

  /** A file that `es` does not touch and that is not among `paths` is kept by `es`
      followed by the removal of `paths`. */
  lemma {:induction false} KeptByRemovals(fs: FileSystem, es: seq<Effect>, paths: seq<string>, p: string)
    requires forall j :: 0 <= j < |es| ==> !Touches(es[j], p)
    requires p !in paths
    ensures var after := ApplyAll(fs, es + Removals(paths));
      && (p in after <==> p in fs)
      && (p in fs ==> after[p] == fs[p])
  {
    Untouched(fs, es, p);
    ApplyAllAppend(fs, es, Removals(paths));
    RemovalsClear(ApplyAll(fs, es), paths);
  }

  /** The temporary file for chunk `i`: `f"temp_chunk_{i}.mp3"`. */
  function TempName(i: nat): string {
    "temp_chunk_" + Str(i) + ".mp3"
  }

  /** The temporary file names, `temp_chunk_0.mp3`, `temp_chunk_1.mp3`, ... */
  function TempFiles(n: nat): (files: seq<string>)
    ensures |files| == n
  {
    seq(n, i requires 0 <= i < n => TempName(i))
  }

  /** The name of the combined file inside the output directory. */
  const OutputName := "audiolibro.mp3"

  /** `os.path.join(output_dir, "audiolibro.mp3")`. */
  function OutputPath(dir: string): string {
    Join(dir, OutputName)
  }

  /** Chunks never share a temporary file, and the names need no quoting in an ffmpeg
      list file and contain no line break. */
  lemma TempNames(i: nat, j: nat)
    ensures TempName(i) == TempName(j) <==> i == j
    ensures '\'' !in TempName(i) && '\n' !in TempName(i)
  {
    var a, b := TempName(i), TempName(j);
    if a == b {
      assert a[11..|a| - 4] == Str(i);
      assert b[11..|b| - 4] == Str(j);
      StrInjective(i, j);
    }
    assert forall k :: 0 <= k < |Str(i)| ==> a[11 + k] == Str(i)[k];
  }

  /** The combined output never overwrites a temporary chunk file: its name ends in
      "o.mp3", a temporary name in a digit and ".mp3". */
  lemma OutputIsNotTemp(dir: string, i: nat)
    ensures OutputPath(dir) != TempName(i)
  {
  }
}

=== FILE: gui.dfy ===
/** The parts of `AudiobookGUI` that decide what is run: `validate_inputs`, the page
    fields as `start_processing` and `run_processing` read them, and what the user is
    told once `create_audiobook` returns. */
module Gui {
  import opened Wrappers
  import opened PyStr
  import opened Pages
  import opened Files
  import opened Stages
  import F = FfmpegCreator

  /** The form: PDF path, output directory, the two page spinboxes (as typed), and the
      translate check box. */
  datatype Form = Form(pdfPath: string, outputDir: string, startPage: string, endPage: string, translate: bool)

  const PdfMissing := "Seleccione un archivo PDF"
  const DirMissing := "Seleccione directorio de salida"

  /** The message of the first field whose value strips to "", checked in list order. */
  function FirstBlankField(fields: seq<(string, string)>): (r: Option<string>)
    ensures r.None? <==> forall i :: 0 <= i < |fields| ==> !Blank(fields[i].0)
    ensures r.Some? ==> exists i :: 0 <= i < |fields| && Blank(fields[i].0) && r.value == fields[i].1
                          && forall j :: 0 <= j < i ==> !Blank(fields[j].0)
    decreases |fields|
  {
    if |fields| == 0 then None
    else
      StripEmptyIffBlank(fields[0].0);
      if Strip(fields[0].0) == "" then Some(fields[0].1)
      else
        var rest := FirstBlankField(fields[1..]);
        if rest.Some? then
          var i :| 0 <= i < |fields[1..]| && Blank(fields[1..][i].0) && rest.value == fields[1..][i].1
                   && forall j :: 0 <= j < i ==> !Blank(fields[1..][j].0);
          assert fields[i + 1] == fields[1..][i];
          assert forall j :: 1 <= j < i + 1 ==> fields[j] == fields[1..][j - 1];
          rest
        else
          assert forall i :: 1 <= i < |fields| ==> fields[i] == fields[1..][i - 1];
          rest
  }

  /** `validate_inputs`: `None` when both paths hold more than whitespace; otherwise the
      error for the PDF path if that one is blank, else the one for the directory. */
  function ValidateInputs(pdfPath: string, outputDir: string): (r: Option<string>)
    ensures r.None? <==> !Blank(pdfPath) && !Blank(outputDir)
    ensures r == Some(PdfMissing) <==> Blank(pdfPath)
    ensures r == Some(DirMissing) <==> !Blank(pdfPath) && Blank(outputDir)
  {
    var fields := [(pdfPath, PdfMissing), (outputDir, DirMissing)];
    assert fields[0].0 == pdfPath && fields[1].0 == outputDir;
    FirstBlankField(fields)
  }

  /** A spinbox value as `run_processing` reads it. */
  datatype PageEntry =
    | Unset        // "" becomes `None`
    | Page(n: nat) // `int(value)`
    | NotANumber   // `int(value)` raises `ValueError`

  /** `self.start_page.get() or None`, then `int(v) if v else None`; only strings of
      ASCII digits are read as numbers. */
  function ParsePageEntry(text: string): (r: PageEntry)
    ensures r == Unset <==> text == ""
    ensures r.Page? <==> text != "" && AllDigits(text)
    ensures r.Page? ==> Int(text) == Some(r.n)
  {
    if text == "" then Unset
    else match Int(text)
      case Some(n) => Page(n)
      case None => NotANumber
  }

  /** A page number typed as its decimal string is read back as that number. */
  lemma ParsePageEntryOfStr(n: nat)
    ensures ParsePageEntry(Str(n)) == Page(n)
  {
    IntStr(n);
  }

  /** The page value handed to `AudioBookCreator`. */
  function PageArgument(e: PageEntry): Option<nat>
    requires !e.NotANumber?
  {
    if e.Page? then Some(e.n) else None
  }

  /** What the user sees in the end. */
  datatype Outcome =
    | Rejected(message: string)        // `validate_inputs` failed: nothing runs
    | Reported(success: bool, effects: seq<Effect>)  // "Éxito" or "Error" after the job

  /** `start_processing` followed by `run_processing` (which runs on its own thread):
      the creator gets the default chunk size and target language. Success is reported
      whenever `create_audiobook` returns, and an error only when an exception
      reaches `run_processing`. */
  function StartProcessing(form: Form, s: F.Services): (o: Outcome)
    ensures o.Rejected? <==> ValidateInputs(form.pdfPath, form.outputDir).Some?
    ensures o.Rejected? ==> Some(o.message) == ValidateInputs(form.pdfPath, form.outputDir)
    ensures (o.Reported? && (ParsePageEntry(form.startPage).NotANumber? || ParsePageEntry(form.endPage).NotANumber?))
              ==> o == Reported(false, [])
    ensures o.Reported? && !ParsePageEntry(form.startPage).NotANumber? && !ParsePageEntry(form.endPage).NotANumber? ==>
              (&& (o.success <==> F.CreateAudiobook(FormConfig(form), s).ending != F.Raised)
               && o.effects == F.CreateAudiobook(FormConfig(form), s).effects)
  {
    match ValidateInputs(form.pdfPath, form.outputDir)
    case Some(message) => Rejected(message)
    case None =>
      var start := ParsePageEntry(form.startPage);
      var end := ParsePageEntry(form.endPage);
      if start.NotANumber? || end.NotANumber? then Reported(false, [])
      else
        var job := F.CreateAudiobook(FormConfig(form), s);
        Reported(job.ending != F.Raised, job.effects)
  }

  /** The configuration `run_processing` builds from a valid form. */
  function FormConfig(form: Form): F.Config
    requires !ParsePageEntry(form.startPage).NotANumber? && !ParsePageEntry(form.endPage).NotANumber?
  {
    F.DefaultConfig(form.pdfPath, form.outputDir,
                    PageArgument(ParsePageEntry(form.startPage)), PageArgument(ParsePageEntry(form.endPage)), form.translate)
  }

  /** Success is reported even when nothing was extracted, so no audio was made, and
      when ffmpeg exited with an error. */
  lemma SuccessReportedWithoutAudio(form: Form, s: F.Services)
    requires ValidateInputs(form.pdfPath, form.outputDir).None?
    requires !ParsePageEntry(form.startPage).NotANumber? && !ParsePageEntry(form.endPage).NotANumber?
    requires NoTextToRead(F.ExtractText(FormConfig(form), s.open(form.pdfPath))) || s.concat == F.ExitedNonZero
    ensures StartProcessing(form, s).Reported? && StartProcessing(form, s).success
    ensures NoTextToRead(F.ExtractText(FormConfig(form), s.open(form.pdfPath))) ==> StartProcessing(form, s) == Reported(true, [])
  {
  }

  /** The spinboxes count from 1, but the value is used as a 0-based page index: a
      start of `n` skips pages `0..n-1`, so the first page of the document is read only
      when the start field is left empty or set to 0. */
  lemma SpinboxValueIsZeroBased(form: Form, total: nat)
    requires !ParsePageEntry(form.startPage).NotANumber? && !ParsePageEntry(form.endPage).NotANumber?
    ensures var cfg := FormConfig(form);
      var read := PagesRead(ResolveRange(cfg.startPage, cfg.endPage, total));
      && (forall k :: 0 <= k < |read| ==> read[k] >= cfg.startPage.GetOr(0))
      && (0 < total && (0 in read) ==> form.startPage == "" || Int(form.startPage) == Some(0))
      && (form.startPage == "1" ==> 0 !in read)
  {
    var cfg := FormConfig(form);
    ResolvedPagesInBounds(cfg.startPage, cfg.endPage, total);
    if form.startPage == "1" {
      assert Int("1") == Some(1);
    }
  }
}

=== FILE: manifest.dfy ===
/** The ffmpeg concat list file: one `file '<name>'` line per temporary chunk file, and a
    reader for it that recovers the names. */
module Manifest {
  import opened Wrappers
  import opened Seqs

  /** `f"file '{file}'\n"`. */
  function Entry(name: string): string {
    "file '" + name + "'\n"
  }

  /** The list file's content: the entries of `names`, in order. */
  function ListContent(names: seq<string>): string {
    Flatten(seq(|names|, i requires 0 <= i < |names| => Entry(names[i])))
  }

  /** Index of the first line break in `s`, or `|s|` when there is none. */
  function LineEnd(s: string): (k: nat)
    ensures k <= |s|
    ensures forall i :: 0 <= i < k ==> s[i] != '\n'
    ensures k < |s| ==> s[k] == '\n'
    decreases |s|
  {
    if |s| == 0 || s[0] == '\n' then 0 else 1 + LineEnd(s[1..])
  }

  /** The lines of `s`; each line break ends a line, and trailing text without one is a
      last line. */
  function Lines(s: string): seq<string>
    decreases |s|
  {
    if |s| == 0 then []
    else
      var k := LineEnd(s);
      if k < |s| then [s[..k]] + Lines(s[k + 1..]) else [s]
  }

  /** The file name in one list line, if the line has the `file '...'` form. */
  function ParseEntry(line: string): Option<string> {
    if |line| >= 7 && line[..6] == "file '" && line[|line| - 1] == '\''
    then Some(line[6..|line| - 1])
    else None
  }

  /** The file names a list file names, in order; `None` if some line is malformed. */
  function ParseList(content: string): Option<seq<string>> {
    var lines := Lines(content);
    if forall i :: 0 <= i < |lines| ==> ParseEntry(lines[i]).Some?
    then Some(seq(|lines|, i requires 0 <= i < |lines| => ParseEntry(lines[i]).value))
    else None
  }

  /** The line `Entry(name)` holds, without its line break. */
  function EntryLine(name: string): string {
    "file '" + name + "'"
  }

  lemma LinesOfEntry(name: string, rest: string)
    requires '\n' !in name
    ensures Lines(Entry(name) + rest) == [EntryLine(name)] + Lines(rest)
  {
    var line := EntryLine(name);
    var s := Entry(name) + rest;
    assert s == line + "\n" + rest;
    var k := LineEnd(s);
    assert forall i :: 0 <= i < |line| ==> s[i] == line[i];
    assert forall i :: 6 <= i < |line| - 1 ==> line[i] == name[i - 6];
    assert forall i :: 0 <= i < |line| ==> line[i] != '\n';
    assert s[|line|] == '\n';
    assert k == |line|;
    assert s[..k] == line;
    assert s[k + 1..] == rest;
  }

  lemma ListContentCons(names: seq<string>)
    requires |names| > 0
    ensures ListContent(names) == Entry(names[0]) + ListContent(names[1..])
  {
    var tail := names[1..];
    var entries := seq(|names|, i requires 0 <= i < |names| => Entry(names[i]));
    var entries' := seq(|tail|, i requires 0 <= i < |tail| => Entry(tail[i]));
    assert entries == [Entry(names[0])] + entries';
    FlattenCons(Entry(names[0]), entries');
  }

  /** The lines of the list file are the entries, one per name, in order. */
  lemma {:induction false} LinesOfList(names: seq<string>)
    requires forall i :: 0 <= i < |names| ==> '\n' !in names[i]
    ensures Lines(ListContent(names)) == seq(|names|, i requires 0 <= i < |names| => EntryLine(names[i]))
    decreases |names|
  {
    if |names| > 0 {
      LinesOfList(names[1..]);
      ListContentCons(names);
      LinesOfEntry(names[0], ListContent(names[1..]));
    } else {
      assert ListContent(names) == [];
    }
  }

  lemma ParseEntryLine(name: string)
    ensures ParseEntry(EntryLine(name)) == Some(name)
  {
  }

  /** Reading the list file back yields exactly the names written, in order, one line per
      name, when no name contains a line break. */
  lemma ListRoundTrip(names: seq<string>)
    requires forall i :: 0 <= i < |names| ==> '\n' !in names[i]
    ensures |Lines(ListContent(names))| == |names|
    ensures ParseList(ListContent(names)) == Some(names)
  {
    LinesOfList(names);
    var lines := Lines(ListContent(names));
    forall i | 0 <= i < |lines|
      ensures ParseEntry(lines[i]) == Some(names[i])
    {
      ParseEntryLine(names[i]);
    }
    var parsed := seq(|lines|, i requires 0 <= i < |lines| => ParseEntry(lines[i]).value);
    assert parsed == names;
  }
}

=== FILE: pages.dfy ===
/** The PDF as the extraction code sees it, the page-range resolution shared by both
    versions of `extract_text_from_pdf`, and the two ways they join page texts. */
module Pages {
  import opened Wrappers
  import opened Seqs
  import opened PyRange

  /** An opened PDF: what `page.extract_text()` returns for each page, `None` when the
      library finds no text layer. */
  datatype Pdf = Pdf(pages: seq<Option<string>>)

  /** The resolved `[start, end)` page indices (0-based). */
  datatype PageRange = PageRange(start: nat, end: nat)

  /** A missing start becomes 0; a missing end, or one past the last page, becomes the
      page count; every other value is kept as given. */
  function ResolveRange(start: Option<nat>, end: Option<nat>, total: nat): (r: PageRange)
    ensures r.end <= total
    ensures r.start == start.GetOr(0)
    ensures end.Some? && end.value <= total ==> r.end == end.value
    ensures end.None? || end.value > total ==> r.end == total
  {
    var s := if start.None? then 0 else start.value;
    var e := if end.None? || end.value > total then total else end.value;
    PageRange(s, e)
  }

  /** The page indices `for i in range(start, end)` visits, in order. */
  function PagesRead(r: PageRange): seq<nat> {
    Range(r.start, r.end, 1)
  }

  /** Every page the resolved range visits exists, so `pdf.pages[i]` never raises:
      the visit is exactly `start, start + 1, ..., end - 1`. */
  lemma ResolvedPagesInBounds(start: Option<nat>, end: Option<nat>, total: nat)
    ensures var r := ResolveRange(start, end, total);
      var read := PagesRead(r);
      && |read| == (if r.start < r.end then r.end - r.start else 0)
      && (forall k :: 0 <= k < |read| ==> read[k] == r.start + k && read[k] < total)
      && (forall i :: r.start <= i < r.end <==> i in read)
  {
    var r := ResolveRange(start, end, total);
    UnitRange(r.start, r.end);
  }

  /** All the indices are pages of `pdf`. */
  predicate InPdf(pdf: Pdf, idx: seq<nat>) {
    forall k :: 0 <= k < |idx| ==> idx[k] < |pdf.pages|
  }

  /** What a page adds under `if page_text: text += page_text`: nothing for `None`. */
  function PageText(p: Option<string>): string {
    p.GetOr("")
  }

  /** The text the skipping loop builds over the pages `idx`, appending in order. */
  function TextOfPages(pdf: Pdf, idx: seq<nat>): string
    requires InPdf(pdf, idx)
    decreases |idx|
  {
    if |idx| == 0 then ""
    else TextOfPages(pdf, idx[..|idx| - 1]) + PageText(pdf.pages[idx[|idx| - 1]])
  }

  /** The texts of the pages `idx`, in order (`None` pages as ""). */
  function PageTexts(pdf: Pdf, idx: seq<nat>): (r: seq<string>)
    requires InPdf(pdf, idx)
    ensures |r| == |idx|
  {
    seq(|idx|, k requires 0 <= k < |idx| => PageText(pdf.pages[idx[k]]))
  }

  /** The skipping loop's text is the in-order concatenation of the page texts. */
  lemma {:induction false} TextOfPagesIsConcatenation(pdf: Pdf, idx: seq<nat>)
    requires InPdf(pdf, idx)
    ensures TextOfPages(pdf, idx) == Flatten(PageTexts(pdf, idx))
    decreases |idx|
  {
    if |idx| > 0 {
      var idx' := idx[..|idx| - 1];
      TextOfPagesIsConcatenation(pdf, idx');
      assert PageTexts(pdf, idx)[..|idx| - 1] == PageTexts(pdf, idx');
    }
  }

  /** The texts of the pages of `r`, in page order (`None` pages as ""). */
  function RangeTexts(pdf: Pdf, r: PageRange): (texts: seq<string>)
    requires r.end <= r.start || r.end <= |pdf.pages|
    ensures |texts| == |PagesRead(r)|
  {
    UnitRange(r.start, r.end);
    seq(if r.start < r.end then r.end - r.start else 0,
        k requires 0 <= k < (if r.start < r.end then r.end - r.start else 0) => PageText(pdf.pages[r.start + k]))
  }

  /** Reading one more page appends its text. */
  lemma RangeTextsSnoc(pdf: Pdf, lo: nat, hi: nat)
    requires lo <= hi < |pdf.pages|
    ensures RangeTexts(pdf, PageRange(lo, hi + 1)) == RangeTexts(pdf, PageRange(lo, hi)) + [PageText(pdf.pages[hi])]
  {
  }

  /** Over a resolved range, the skipping loop's text is the concatenation of the texts
      of pages `start, ..., end - 1`. */
  lemma RangeTextsConcatenation(pdf: Pdf, r: PageRange)
    requires r.end <= |pdf.pages|
    ensures InPdf(pdf, PagesRead(r))
    ensures TextOfPages(pdf, PagesRead(r)) == Flatten(RangeTexts(pdf, r))
  {
    UnitRange(r.start, r.end);
    TextOfPagesIsConcatenation(pdf, PagesRead(r));
    assert PageTexts(pdf, PagesRead(r)) == RangeTexts(pdf, r);
  }

  /** The text of `text += page.extract_text()` over the pages `idx`: the first `None`
      page makes `+=` raise, and the caller's `except` turns that into `None`. */
  function StrictTextOfPages(pdf: Pdf, idx: seq<nat>): (r: Option<string>)
    requires InPdf(pdf, idx)
    decreases |idx|
  {
    if |idx| == 0 then Some("")
    else
      var prefix := StrictTextOfPages(pdf, idx[..|idx| - 1]);
      var page := pdf.pages[idx[|idx| - 1]];
      if prefix.None? || page.None? then None else Some(prefix.value + page.value)
  }

  /** Some page in `idx` has no text. */
  predicate HasTextlessPage(pdf: Pdf, idx: seq<nat>)
    requires InPdf(pdf, idx)
  {
    exists k :: 0 <= k < |idx| && pdf.pages[idx[k]].None?
  }

  /** The strict join fails exactly when some visited page has no text; otherwise it
      agrees with the skipping join. */
  lemma {:induction false} StrictJoinFailsOnTextless(pdf: Pdf, idx: seq<nat>)
    requires InPdf(pdf, idx)
    ensures StrictTextOfPages(pdf, idx).None? <==> HasTextlessPage(pdf, idx)
    ensures StrictTextOfPages(pdf, idx).Some? ==> StrictTextOfPages(pdf, idx).value == TextOfPages(pdf, idx)
    decreases |idx|
  {
    if |idx| > 0 {
      var idx' := idx[..|idx| - 1];
      StrictJoinFailsOnTextless(pdf, idx');
      if HasTextlessPage(pdf, idx') {
        var k :| 0 <= k < |idx'| && pdf.pages[idx'[k]].None?;
        assert idx[k] == idx'[k];
      }
      if HasTextlessPage(pdf, idx) && pdf.pages[idx[|idx| - 1]].Some? {
        var k :| 0 <= k < |idx| && pdf.pages[idx[k]].None?;
        assert k < |idx| - 1 && idx'[k] == idx[k];
      }
    }
  }

  /** Some page of `r` has no text. */
  predicate TextlessIn(pdf: Pdf, r: PageRange) {
    exists i :: r.start <= i < r.end && i < |pdf.pages| && pdf.pages[i].None?
  }

  /** Over a resolved range, the strict join fails exactly when some page of the range
      has no text, and otherwise is the concatenation of the page texts in order. */
  lemma StrictRangeText(pdf: Pdf, r: PageRange)
    requires r.end <= r.start || r.end <= |pdf.pages|
    ensures InPdf(pdf, PagesRead(r))
    ensures StrictTextOfPages(pdf, PagesRead(r)).None? <==> TextlessIn(pdf, r)
    ensures StrictTextOfPages(pdf, PagesRead(r)).Some? ==>
      StrictTextOfPages(pdf, PagesRead(r)).value == Flatten(RangeTexts(pdf, r))
  {
    UnitRange(r.start, r.end);
    var read := PagesRead(r);
    StrictJoinFailsOnTextless(pdf, read);
    if TextlessIn(pdf, r) {
      var i :| r.start <= i < r.end && i < |pdf.pages| && pdf.pages[i].None?;
      assert read[i - r.start] == i;
    }
    if r.start < r.end {
      RangeTextsConcatenation(pdf, r);
    } else {
      assert read == [];
    }
  }
}

=== FILE: pydub_creator.dfy ===
/** The gTTS / pydub version of `AudioBookCreator` (audio.py): `text += None` aborts the
    whole extraction, each chunk is spoken into `temp_chunk_{i}.mp3` with no error
    handling, the output directory is created if missing, pydub joins the decoded
    segments in chunk order, and the temporary files are removed after the export. */
module PydubCreator {
  import opened Wrappers
  import opened Seqs
  import opened Pages
  import opened Chunking
  import opened Stages
  import opened Files

  /** The constructor's arguments. */
  datatype Config = Config(
    pdfFile: string,
    outputDir: string,
    startPage: Option<nat>,
    endPage: Option<nat>,
    chunkSize: int)

  /** A creator built with the constructor default `chunk_size=500`, as `process_client`
      builds it. */
  function DefaultConfig(pdfFile: string, outputDir: string, startPage: Option<nat>, endPage: Option<nat>): (c: Config)
    ensures c.chunkSize == 500
  {
    Config(pdfFile, outputDir, startPage, endPage, 500)
  }

  /** The outside world: opening the PDF (`None` when pdfplumber raises), gTTS speaking
      a text in a language and saving it (`None` when it raises; the audio is what pydub
      later decodes from the file), and whether a directory exists. */
  datatype Services = Services(
    open: string -> Option<Pdf>,
    speak: (string, string) -> Option<Audio>,
    dirExists: string -> bool)

  /** The language every chunk is spoken in. */
  const Lang := "es"

  /** How `create_audiobook` ends. */
  datatype Ending =
    | NoText              // nothing extracted: it returns at once
    | Saved(path: string)
    | Raised              // an exception leaves `create_audiobook`

  datatype Job = Job(ending: Ending, effects: seq<Effect>)

  /** What `extract_text_from_pdf` returns: `None` when the PDF cannot be opened or some
      page in the resolved range has no text (the `+=` raises `TypeError`, caught by the
      method's `except`); otherwise every page text of the range, in order. */
  function ExtractText(cfg: Config, doc: Option<Pdf>): (r: Option<string>)
    ensures doc.None? ==> r.None?
    ensures doc.Some? ==>
      var range := ResolveRange(cfg.startPage, cfg.endPage, |doc.value.pages|);
      && (r.None? <==> TextlessIn(doc.value, range))
      && (r.Some? ==> r.value == Flatten(RangeTexts(doc.value, range)))
  {
    match doc
    case None => None
    case Some(pdf) =>
      var range := ResolveRange(cfg.startPage, cfg.endPage, |pdf.pages|);
      StrictRangeText(pdf, range);
      StrictTextOfPages(pdf, PagesRead(range))
  }

  /** The extraction loop as written: `text += pdf.pages[i].extract_text()` for
      `i in range(start, end)`, leaving with `None` at the first page without text. */
  method ExtractTextFromPdf(cfg: Config, doc: Option<Pdf>) returns (text: Option<string>)
    ensures text == ExtractText(cfg, doc)
  {
    if doc.None? {
      return None;
    }
    var pdf := doc.value;
    var total := |pdf.pages|;
    var start := if cfg.startPage.None? then 0 else cfg.startPage.value;
    var end := if cfg.endPage.None? || cfg.endPage.value > total then total else cfg.endPage.value;
    ghost var range := ResolveRange(cfg.startPage, cfg.endPage, total);
    assert range == PageRange(start, end);
    var acc := "";
    var i := start;
    while i < end
      invariant start <= i && (i <= end || i == start)
      invariant end <= total
      invariant forall j :: start <= j < i ==> pdf.pages[j].Some?
      invariant acc == Flatten(RangeTexts(pdf, PageRange(start, i)))
      decreases end - i
    {
      var pageText := pdf.pages[i];
      if pageText.None? {
        assert TextlessIn(pdf, range);
        return None;
      }
      RangeTextsSnoc(pdf, start, i);
      acc := acc + pageText.value;
      i := i + 1;
    }
    text := Some(acc);
    if start >= end {
      assert RangeTexts(pdf, PageRange(start, i)) == RangeTexts(pdf, range);
    }
    assert !TextlessIn(pdf, range);
  }

  /** Extraction, the early exit, then splitting (no translation in this version). The
      chunks join back to the extracted text. */
  function Prepare(cfg: Config, s: Services): (r: Prepared)
    ensures var text := ExtractText(cfg, s.open(cfg.pdfFile));
      && (r.NothingExtracted? <==> NoTextToRead(text))
      && (r.SplitFailed? <==> !NoTextToRead(text) && cfg.chunkSize == 0)
      && (r.Ready? && cfg.chunkSize < 0 ==> r.chunks == [])
      && (r.Ready? && cfg.chunkSize > 0 ==> r.chunks == Chunks(text.value, cfg.chunkSize))
      && (r.Ready? && cfg.chunkSize > 0 ==> Flatten(r.chunks) == text.value)
  {
    var text := ExtractText(cfg, s.open(cfg.pdfFile));
    if NoTextToRead(text) then NothingExtracted
    else
      match SplitText(text.value, cfg.chunkSize)
      case None => SplitFailed
      case Some(chunks) =>
        if cfg.chunkSize > 0 then
          ChunksPartition(text.value, cfg.chunkSize);
          Ready(chunks)
        else Ready(chunks)
  }

  /** The first chunk at or after `from` the speech service fails on, or `|chunks|`. */
  function FirstFailure(chunks: seq<string>, speak: (string, string) -> Option<Audio>, from: nat): (k: nat)
    requires from <= |chunks|
    ensures from <= k <= |chunks|
    ensures forall i :: from <= i < k ==> speak(chunks[i], Lang).Some?
    ensures k < |chunks| ==> speak(chunks[k], Lang).None?
    decreases |chunks| - from
  {
    if from == |chunks| || speak(chunks[from], Lang).None? then from
    else FirstFailure(chunks, speak, from + 1)
  }

  /** The decoded segments of the first `k` chunks, all of which were spoken. */
  function Segments(chunks: seq<string>, speak: (string, string) -> Option<Audio>, k: nat): (segs: seq<Audio>)
    requires k <= |chunks|
    requires forall i :: 0 <= i < k ==> speak(chunks[i], Lang).Some?
    ensures |segs| == k
  {
    seq(k, i requires 0 <= i < k => speak(chunks[i], Lang).value)
  }

  /** The segments joined the way `combined += AudioSegment.from_mp3(f)` does it, from
      `AudioSegment.empty()`. */
  method CombineSegments(segments: seq<Audio>) returns (combined: Audio)
    ensures combined == Flatten(segments)
    ensures |combined| == TotalLength(segments)
  {
    combined := [];
    var i := 0;
    while i < |segments|
      invariant 0 <= i <= |segments|
      invariant combined == Flatten(segments[..i])
    {
      assert segments[..i + 1][..i] == segments[..i];
      combined := combined + segments[i];
      i := i + 1;
    }
    assert segments[..i] == segments;
    FlattenLength(segments);
  }

  /** The saves of the first `k` chunks, each into its temporary file with its audio. */
  function SavedChunks(chunks: seq<string>, speak: (string, string) -> Option<Audio>, k: nat): (es: seq<Effect>)
    requires k <= |chunks|
    requires forall i :: 0 <= i < k ==> speak(chunks[i], Lang).Some?
    ensures |es| == k
    ensures forall i :: 0 <= i < k ==> es[i].Synthesized? && es[i].path == TempName(i)
  {
    seq(k, i requires 0 <= i < k => Synthesized(TempName(i), chunks[i], speak(chunks[i], Lang).value))
  }

  /** What a job whose every chunk was spoken does before removing its temporary
      files: the saves, `makedirs` when the directory is missing, and the export. */
  function SavedSteps(outputDir: string, chunks: seq<string>, s: Services): seq<Effect>
    requires forall i :: 0 <= i < |chunks| ==> s.speak(chunks[i], Lang).Some?
  {
    var n := |chunks|;
    SavedChunks(chunks, s.speak, n)
      + (if s.dirExists(outputDir) then [] else [MadeDirs(outputDir)])
      + [Exported(OutputPath(outputDir), Flatten(Segments(chunks, s.speak, n)))]
  }

  /** Everything after splitting: speak and save each chunk (an uncaught failure stops
      the job there), create the output directory if needed, export the combined audio,
      remove the temporary files. */
  function Assemble(outputDir: string, chunks: seq<string>, s: Services): (job: Job)
    ensures var k := FirstFailure(chunks, s.speak, 0);
      && job.ending != NoText
      && (job.ending == Raised <==> k < |chunks|)
      && (job.ending == Raised ==> |job.effects| == k + 1 && job.effects[k] == SynthesisFailed(TempName(k), chunks[k]))
      && (job.ending == Raised ==>
            forall i :: 0 <= i < k ==> job.effects[i] == Synthesized(TempName(i), chunks[i], s.speak(chunks[i], Lang).value))
      && (job.ending.Saved? ==>
            var n := |chunks|;
            var m := if s.dirExists(outputDir) then 0 else 1;
            && job.ending.path == OutputPath(outputDir)
            && |job.effects| == 2 * n + 1 + m
            && (forall i :: 0 <= i < n ==> job.effects[i] == Synthesized(TempName(i), chunks[i], s.speak(chunks[i], Lang).value))
            && (m == 1 ==> job.effects[n] == MadeDirs(outputDir))
            && job.effects[n + m] == Exported(OutputPath(outputDir), Flatten(Segments(chunks, s.speak, n)))
            && job.effects[n + m + 1..] == Removals(TempFiles(n)))
  {
    var n := |chunks|;
    var k := FirstFailure(chunks, s.speak, 0);
    if k < n then
      Job(Raised, SavedChunks(chunks, s.speak, k) + [SynthesisFailed(TempName(k), chunks[k])])
    else
      Job(Saved(OutputPath(outputDir)), SavedSteps(outputDir, chunks, s) + Removals(TempFiles(n)))
  }

  /** `create_audiobook`. It returns before touching any file when nothing was
      extracted, and stops before speaking anything when splitting raises. */
  function CreateAudiobook(cfg: Config, s: Services): (job: Job)
    ensures job.ending == NoText <==> NoTextToRead(ExtractText(cfg, s.open(cfg.pdfFile)))
    ensures job.ending == NoText ==> job.effects == []
    ensures job.ending == Raised && cfg.chunkSize == 0 ==> job.effects == []
    ensures !NoTextToRead(ExtractText(cfg, s.open(cfg.pdfFile))) && cfg.chunkSize == 0 ==> job == Job(Raised, [])
    ensures !NoTextToRead(ExtractText(cfg, s.open(cfg.pdfFile))) && cfg.chunkSize < 0 ==> job == Assemble(cfg.outputDir, [], s)
    ensures job.ending.Saved? ==> job.ending.path == OutputPath(cfg.outputDir)
  {
    match Prepare(cfg, s)
    case NothingExtracted => Job(NoText, [])
    case SplitFailed => Job(Raised, [])
    case Ready(chunks) => Assemble(cfg.outputDir, chunks, s)
  }

  /** Before the cleanup, the output holds the segments joined in chunk order. */
  lemma SavedStepsExport(outputDir: string, chunks: seq<string>, s: Services, fs: FileSystem)
    requires forall i :: 0 <= i < |chunks| ==> s.speak(chunks[i], Lang).Some?
    ensures var after := ApplyAll(fs, SavedSteps(outputDir, chunks, s));
      && OutputPath(outputDir) in after
      && after[OutputPath(outputDir)] == AudioFile(Flatten(Segments(chunks, s.speak, |chunks|)))
  {
    var before := SavedSteps(outputDir, chunks, s);
    LastWriteWins(fs, before, |before| - 1, OutputPath(outputDir), AudioFile(Flatten(Segments(chunks, s.speak, |chunks|))));
  }

  /** `makedirs` is among the steps exactly when the directory is missing. */
  lemma SavedStepsMakeDirs(outputDir: string, chunks: seq<string>, s: Services)
    requires forall i :: 0 <= i < |chunks| ==> s.speak(chunks[i], Lang).Some?
    ensures MadeDirs(outputDir) in SavedSteps(outputDir, chunks, s) <==> !s.dirExists(outputDir)
  {
  }

  /** The steps followed by the cleanup leave the output with the joined segments and
      no temporary file. */
  lemma SavedStepsThenCleanup(outputDir: string, chunks: seq<string>, s: Services, fs: FileSystem)
    requires forall i :: 0 <= i < |chunks| ==> s.speak(chunks[i], Lang).Some?
    ensures var output := OutputPath(outputDir);
      var after := ApplyAll(fs, SavedSteps(outputDir, chunks, s) + Removals(TempFiles(|chunks|)));
      && output in after
      && after[output] == AudioFile(Flatten(Segments(chunks, s.speak, |chunks|)))
      && (forall i :: 0 <= i < |chunks| ==> TempName(i) !in after)
  {
    var output := OutputPath(outputDir);
    var before := SavedSteps(outputDir, chunks, s);
    var files := TempFiles(|chunks|);
    SavedStepsExport(outputDir, chunks, s, fs);
    ApplyAllAppend(fs, before, Removals(files));
    RemovalsClear(ApplyAll(fs, before), files);
    forall i | 0 <= i < |chunks|
      ensures output != files[i]
    {
      OutputIsNotTemp(outputDir, i);
    }
    assert output !in files;
    assert forall i :: 0 <= i < |chunks| ==> files[i] == TempName(i);
  }

  /** A successful job: every chunk was spoken; the output directory is created exactly
      when it did not exist, before the export; afterwards the output holds the segments
      joined in chunk order, and no temporary file is left. */
  lemma SavedJob(outputDir: string, chunks: seq<string>, s: Services, fs: FileSystem)
    requires Assemble(outputDir, chunks, s).ending.Saved?
    ensures var job := Assemble(outputDir, chunks, s);
      var n := |chunks|;
      var output := OutputPath(outputDir);
      var after := ApplyAll(fs, job.effects);
      && (forall i :: 0 <= i < n ==> s.speak(chunks[i], Lang).Some?)
      && (MadeDirs(outputDir) in job.effects <==> !s.dirExists(outputDir))
      && output in after
      && after[output] == AudioFile(Flatten(Segments(chunks, s.speak, n)))
      && (forall i :: 0 <= i < n ==> TempName(i) !in after)
  {
    var files := TempFiles(|chunks|);
    assert Assemble(outputDir, chunks, s).effects == SavedSteps(outputDir, chunks, s) + Removals(files);
    SavedStepsMakeDirs(outputDir, chunks, s);
    assert MadeDirs(outputDir) !in Removals(files);
    SavedStepsThenCleanup(outputDir, chunks, s, fs);
  }


  /** The steps followed by the cleanup keep every file but the output and the
      temporary files. */
  lemma SavedStepsFrame(outputDir: string, chunks: seq<string>, s: Services, fs: FileSystem, p: string)
    requires forall i :: 0 <= i < |chunks| ==> s.speak(chunks[i], Lang).Some?
    requires p != OutputPath(outputDir) && p !in TempFiles(|chunks|)
    ensures var after := ApplyAll(fs, SavedSteps(outputDir, chunks, s) + Removals(TempFiles(|chunks|)));
      && (p in after <==> p in fs)
      && (p in fs ==> after[p] == fs[p])
  {
    var n := |chunks|;
    var before := SavedSteps(outputDir, chunks, s);
    var saved := SavedChunks(chunks, s.speak, n);
    var files := TempFiles(n);
    var tail := (if s.dirExists(outputDir) then [] else [MadeDirs(outputDir)])
                + [Exported(OutputPath(outputDir), Flatten(Segments(chunks, s.speak, n)))];
    assert before == saved + tail;
    forall j | 0 <= j < |before|
      ensures !Touches(before[j], p)
    {
      if j < n {
        assert before[j] == saved[j];
        assert files[j] == TempName(j);
      } else {
        assert before[j] == tail[j - n];
      }
    }
    KeptByRemovals(fs, before, files, p);
  }

  /** A successful job touches no file but the output and the temporary files: every
      other file exists afterwards exactly when it did before, with the same content. */
  lemma SavedJobFrame(outputDir: string, chunks: seq<string>, s: Services, fs: FileSystem, p: string)
    requires Assemble(outputDir, chunks, s).ending.Saved?
    requires p != OutputPath(outputDir) && p !in TempFiles(|chunks|)
    ensures var after := ApplyAll(fs, Assemble(outputDir, chunks, s).effects);
      && (p in after <==> p in fs)
      && (p in fs ==> after[p] == fs[p])
  {
    var files := TempFiles(|chunks|);
    assert Assemble(outputDir, chunks, s).effects == SavedSteps(outputDir, chunks, s) + Removals(files);
    SavedStepsFrame(outputDir, chunks, s, fs, p);
  }




  /** A job stopped by a speech failure at chunk `k` never reaches the cleanup: the
      files of chunks `0..k-1` stay behind with their audio, and no output is written. */
  lemma FailedJobLeavesTempFiles(outputDir: string, chunks: seq<string>, s: Services, fs: FileSystem)
    requires Assemble(outputDir, chunks, s).ending == Raised
    ensures var job := Assemble(outputDir, chunks, s);
      var k := FirstFailure(chunks, s.speak, 0);
      var after := ApplyAll(fs, job.effects);
      && k < |chunks|
      && s.speak(chunks[k], Lang).None?
      && (forall i :: 0 <= i < k ==> TempName(i) in after && after[TempName(i)] == AudioFile(s.speak(chunks[i], Lang).value))
      && (forall e :: e in job.effects ==> !e.Exported? && !e.Removed?)
  {
    var job := Assemble(outputDir, chunks, s);
    var k := FirstFailure(chunks, s.speak, 0);
    forall i | 0 <= i < k
      ensures TempName(i) in ApplyAll(fs, job.effects)
      ensures ApplyAll(fs, job.effects)[TempName(i)] == AudioFile(s.speak(chunks[i], Lang).value)
    {
      forall m | i < m < |job.effects|
        ensures !Touches(job.effects[m], TempName(i))
      {
        if m < k {
          TempNames(i, m);
        }
      }
      LastWriteWins(fs, job.effects, i, TempName(i), AudioFile(s.speak(chunks[i], Lang).value));
    }
  }

  /** End to end: a job that saves spoke every chunk of the extracted text, and the
      output then holds their audio joined in chunk order, whatever the filesystem was;
      the text was not empty and the size was not 0. */
  lemma SavedAudiobook(cfg: Config, s: Services, fs: FileSystem)
    requires CreateAudiobook(cfg, s).ending.Saved?
    ensures var text := ExtractText(cfg, s.open(cfg.pdfFile));
      var chunks := if cfg.chunkSize > 0 then Chunks(text.value, cfg.chunkSize) else [];
      var after := ApplyAll(fs, CreateAudiobook(cfg, s).effects);
      && !NoTextToRead(text)
      && cfg.chunkSize != 0
      && (forall i :: 0 <= i < |chunks| ==> s.speak(chunks[i], Lang).Some?)
      && OutputPath(cfg.outputDir) in after
      && after[OutputPath(cfg.outputDir)] == AudioFile(Flatten(Segments(chunks, s.speak, |chunks|)))
      && (forall i :: 0 <= i < |chunks| ==> TempName(i) !in after)
  {
    var chunks := Prepare(cfg, s).chunks;
    SavedJob(cfg.outputDir, chunks, s, fs);
  }

  /** End to end, the other way: once some text was extracted and the size is
      positive, the job assembles exactly the chunks of that text, and it is saved
      exactly when gTTS speaks every one of them. */
  lemma AudiobookOfChunks(cfg: Config, s: Services)
    requires !NoTextToRead(ExtractText(cfg, s.open(cfg.pdfFile))) && cfg.chunkSize > 0
    ensures var chunks := Chunks(ExtractText(cfg, s.open(cfg.pdfFile)).value, cfg.chunkSize);
      var job := CreateAudiobook(cfg, s);
      && job == Assemble(cfg.outputDir, chunks, s)
      && (job.ending.Saved? <==> forall i :: 0 <= i < |chunks| ==> s.speak(chunks[i], Lang).Some?)
  {
  }
}

=== FILE: pypath.dfy ===
/** `os.path.join(a, b)` with POSIX rules. */
module PyPath {

  /** `posixpath.join(dir, name)`: an absolute `name` replaces `dir`; otherwise a `/` is
      inserted unless `dir` is empty or already ends in one. */
  function Join(dir: string, name: string): (r: string)
    ensures |r| >= |name| && r[|r| - |name|..] == name
    ensures |name| > 0 && name[0] != '/' && dir != "" ==> |dir| <= |r| && r[..|dir|] == dir
  {
    if |name| > 0 && name[0] == '/' then name
    else if dir == "" || dir[|dir| - 1] == '/' then dir + name
    else dir + "/" + name
  }
}

=== FILE: pyrange.dfy ===
/** Python's `range(lo, hi, step)` for a positive step, and string slicing `s[lo:hi]`
    for non-negative bounds. */
module PyRange {

  /** The values `range(lo, hi, step)` yields, in order. */
  function Range(lo: nat, hi: nat, step: nat): seq<nat>
    requires step > 0
    decreases hi - lo
  {
    if lo >= hi then [] else [lo] + Range(lo + step, hi, step)
  }

  /** `s[lo:hi]` with Python's clamping of out-of-range bounds. */
  function Slice<T>(s: seq<T>, lo: nat, hi: nat): (r: seq<T>)
    ensures lo <= hi <= |s| ==> r == s[lo..hi]
    ensures hi <= lo ==> r == []
    ensures lo <= |s| <= hi ==> r == s[lo..]
  {
    var a := if lo < |s| then lo else |s|;
    var b := if hi < |s| then hi else |s|;
    if a < b then s[a..b] else []
  }

  /** Element `k` of `range(lo, hi, step)` is `lo + k * step`; every element lies in
      `[lo, hi)`, consecutive elements are one step apart, and the next step after the
      last one reaches `hi`. */
  lemma {:induction false} RangeElements(lo: nat, hi: nat, step: nat)
    requires step > 0
    ensures var r := Range(lo, hi, step);
      && (lo < hi <==> |r| > 0)
      && (forall k :: 0 <= k < |r| ==> r[k] == lo + k * step)
      && (forall k :: 0 <= k < |r| ==> lo <= r[k] < hi)
      && (|r| > 0 ==> r[|r| - 1] + step >= hi)
    decreases hi - lo
  {
    var r := Range(lo, hi, step);
    if lo < hi {
      RangeElements(lo + step, hi, step);
      var r' := Range(lo + step, hi, step);
      assert r == [lo] + r';
      forall k | 1 <= k < |r|
        ensures r[k] == lo + k * step
      {
        assert r[k] == r'[k - 1] == lo + step + (k - 1) * step;
      }
    }
  }

  /** `range(lo, hi, step)` has ceil((hi - lo) / step) elements, stated without division:
      `n` steps cover the interval and `n - 1` steps do not. */
  lemma {:induction false} RangeLength(lo: nat, hi: nat, step: nat)
    requires step > 0
    ensures var n := |Range(lo, hi, step)|;
      && (lo >= hi ==> n == 0)
      && (lo < hi ==> (n - 1) * step < hi - lo <= n * step)
    decreases hi - lo
  {
    if lo < hi {
      RangeLength(lo + step, hi, step);
      var n' := |Range(lo + step, hi, step)|;
      assert (n' + 1) * step == n' * step + step;
    }
  }

  /** `range(lo, hi, 1)` is exactly the integers `lo, lo + 1, ..., hi - 1`. */
  lemma UnitRange(lo: nat, hi: nat)
    ensures var r := Range(lo, hi, 1);
      && |r| == (if lo < hi then hi - lo else 0)
      && (forall k :: 0 <= k < |r| ==> r[k] == lo + k)
      && (forall i :: lo <= i < hi <==> i in r)
  {
    var r := Range(lo, hi, 1);
    RangeElements(lo, hi, 1);
    RangeLength(lo, hi, 1);
    forall i | lo <= i < hi
      ensures i in r
    {
      assert r[i - lo] == i;
    }
  }
}

=== FILE: pystr.dfy ===
/** The parts of Python's `str` the program relies on: `isspace`, `strip`, `str(n)` for a
    natural number, and `int(s)` for a string of ASCII digits. */
module PyStr {
  import opened Wrappers

  /** `c.isspace()`: the characters Python treats as whitespace. */
  predicate IsSpace(c: char) {
    || c == ' ' || ('\t' <= c <= '\r')
    || ('\U{1c}' <= c <= '\U{1f}')
    || c == '\U{85}' || c == '\U{a0}' || c == '\U{1680}'
    || ('\U{2000}' <= c <= '\U{200a}')
    || c == '\U{2028}' || c == '\U{2029}' || c == '\U{202f}' || c == '\U{205f}' || c == '\U{3000}'
  }

  /** Every character of `s` is whitespace (vacuously true of ""). */
  predicate Blank(s: string) {
    forall i :: 0 <= i < |s| ==> IsSpace(s[i])
  }

  /** `s.lstrip()`. */
  function LStrip(s: string): (r: string)
    ensures r == [] || !IsSpace(r[0])
    decreases |s|
  {
    if |s| > 0 && IsSpace(s[0]) then LStrip(s[1..]) else s
  }

  /** `s.rstrip()`. */
  function RStrip(s: string): (r: string)
    decreases |s|
  {
    if |s| > 0 && IsSpace(s[|s| - 1]) then RStrip(s[..|s| - 1]) else s
  }

  /** `s.strip()`. */
  function Strip(s: string): string {
    RStrip(LStrip(s))
  }

  lemma {:induction false} LStripEmpty(s: string)
    ensures LStrip(s) == [] <==> Blank(s)
    decreases |s|
  {
    if |s| > 0 && IsSpace(s[0]) {
      LStripEmpty(s[1..]);
      assert Blank(s) <==> Blank(s[1..]) by {
        if Blank(s[1..]) {
          forall i | 0 <= i < |s| ensures IsSpace(s[i]) {
            if i > 0 { assert s[i] == s[1..][i - 1]; }
          }
        }
      }
    }
  }

  lemma {:induction false} RStripEmpty(s: string)
    ensures RStrip(s) == [] <==> Blank(s)
    decreases |s|
  {
    if |s| > 0 && IsSpace(s[|s| - 1]) {
      var s' := s[..|s| - 1];
      RStripEmpty(s');
      assert Blank(s) <==> Blank(s') by {
        if Blank(s') {
          forall i | 0 <= i < |s| ensures IsSpace(s[i]) {
            if i < |s| - 1 { assert s[i] == s'[i]; }
          }
        }
      }
    }
  }

  /** `not s.strip()` holds exactly when `s` consists of whitespace only. */
  lemma StripEmptyIffBlank(s: string)
    ensures Strip(s) == "" <==> Blank(s)
  {
    LStripEmpty(s);
    var t := LStrip(s);
    RStripEmpty(t);
    if !Blank(s) {
      assert t != [] && !IsSpace(t[0]);
      assert !Blank(t);
    }
  }

  predicate IsDigit(c: char) {
    '0' <= c <= '9'
  }

  predicate AllDigits(s: string) {
    forall i :: 0 <= i < |s| ==> IsDigit(s[i])
  }

  function DigitChar(d: nat): (c: char)
    requires d < 10
    ensures IsDigit(c)
  {
    ('0' as int + d) as char
  }

  /** `str(n)`: the decimal digits of `n`, without leading zeros. */
  function Str(n: nat): (s: string)
    ensures |s| > 0 && AllDigits(s)
    decreases n
  {
    if n < 10 then [DigitChar(n)] else Str(n / 10) + [DigitChar(n % 10)]
  }

  /** The value of a string of decimal digits (leading zeros allowed). */
  function DigitsValue(s: string): nat
    requires AllDigits(s)
    decreases |s|
  {
    if |s| == 0 then 0
    else DigitsValue(s[..|s| - 1]) * 10 + (s[|s| - 1] as int - '0' as int)
  }

  /** `int(s)` restricted to ASCII digit strings: `None` stands for the `ValueError`
      Python raises on every other string. */
  function Int(s: string): (r: Option<nat>)
    ensures r.Some? <==> |s| > 0 && AllDigits(s)
  {
    if |s| > 0 && AllDigits(s) then Some(DigitsValue(s)) else None
  }

  /** `int(str(n)) == n`. */
  lemma {:induction false} IntStr(n: nat)
    ensures Int(Str(n)) == Some(n)
    decreases n
  {
    var s := Str(n);
    if n < 10 {
      assert s[..|s| - 1] == [];
    } else {
      IntStr(n / 10);
      assert s[..|s| - 1] == Str(n / 10);
      assert DigitsValue(s) == (n / 10) * 10 + n % 10;
    }
  }

  /** Distinct numbers have distinct decimal strings. */
  lemma StrInjective(a: nat, b: nat)
    ensures Str(a) == Str(b) ==> a == b
  {
    IntStr(a);
    IntStr(b);
  }
}

=== FILE: scenarios.dfy ===
/** The job audio.py's `__main__` configures, worked through the model. */
module Scenarios {
  import opened Wrappers
  import opened PyRange
  import opened Pages
  import opened Chunking
  import PydubCreator

  /** The creator `process_client` builds for the one configured client. */
  function MainJob(): (cfg: PydubCreator.Config)
    ensures cfg.startPage == Some(9) && cfg.endPage == Some(12) && cfg.chunkSize == 500
  {
    PydubCreator.DefaultConfig("Arquetipos e inconsciente colectivo.pdf", "Libro1_Audiolibro", Some(9), Some(12))
  }

  /** That job on a 20-page PDF reads the 0-based pages 9, 10 and 11. */
  lemma PagesNineToTwelve()
    ensures PagesRead(ResolveRange(MainJob().startPage, MainJob().endPage, 20)) == [9, 10, 11]
  {
  }

  /** With an end past the last page the range stops at the last page. */
  lemma EndPastLastPage(total: nat)
    requires 9 <= total < 12
    ensures |PagesRead(ResolveRange(Some(9), Some(12), total))| == total - 9
  {
    UnitRange(9, total);
  }

  /** 1200 characters of text with the default chunk size of 500 give chunks of 500,
      500 and 200 characters. */
  lemma TwelveHundredCharacters(text: string)
    requires |text| == 1200
    ensures var c := Chunks(text, 500);
      |c| == 3 && |c[0]| == 500 && |c[1]| == 500 && |c[2]| == 200
  {
    ChunkCount(text, 500);
    ChunkOffsets(text, 500);
  }
}

=== FILE: seqs.dfy ===
/** Concatenation of a sequence of sequences, used for page texts, chunks and audio. */
module Seqs {

  /** The in-order concatenation of `xs`; defined by appending the last element,
      the way `acc += x` loops in Python build it. */
  function Flatten<T>(xs: seq<seq<T>>): seq<T>
    decreases |xs|
  {
    if |xs| == 0 then [] else Flatten(xs[..|xs| - 1]) + xs[|xs| - 1]
  }

  /** Sum of the lengths of the elements of `xs`. */
  function TotalLength<T>(xs: seq<seq<T>>): nat
    decreases |xs|
  {
    if |xs| == 0 then 0 else TotalLength(xs[..|xs| - 1]) + |xs[|xs| - 1]|
  }

  /** Concatenation distributes over appending sequences. */
  lemma {:induction false} FlattenAppend<T>(a: seq<seq<T>>, b: seq<seq<T>>)
    ensures Flatten(a + b) == Flatten(a) + Flatten(b)
    decreases |b|
  {
    if |b| == 0 {
      assert a + b == a;
    } else {
      var b' := b[..|b| - 1];
      assert (a + b)[..|a + b| - 1] == a + b';
      FlattenAppend(a, b');
    }
  }

  /** Unfolding `Flatten` from the front. */
  lemma FlattenCons<T>(x: seq<T>, xs: seq<seq<T>>)
    ensures Flatten([x] + xs) == x + Flatten(xs)
  {
    FlattenAppend([x], xs);
    assert [x][..0] == [];
  }

  /** The length of a concatenation is the sum of the lengths. */
  lemma {:induction false} FlattenLength<T>(xs: seq<seq<T>>)
    ensures |Flatten(xs)| == TotalLength(xs)
    decreases |xs|
  {
    if |xs| > 0 {
      FlattenLength(xs[..|xs| - 1]);
    }
  }
}

=== FILE: stages.dfy ===
/** What both versions of `create_audiobook` share before any audio is made: the early
    exit on an empty extraction, and the outcome of splitting. */
module Stages {
  import opened Wrappers

  /** `if not text`: Python's falsiness of `None` and "". */
  predicate NoTextToRead(text: Option<string>) {
    text.None? || text.value == ""
  }

  /** The chunks a job goes on to speak, or why it stops before speaking any. */
  datatype Prepared =
    | NothingExtracted       // `if not text: return`
    | SplitFailed            // `split_text` raised (`chunk_size == 0`)
    | Ready(chunks: seq<string>)
}

=== FILE: translation.dfy ===
/** `AudioBookCreator.translate_text` of the ffmpeg version. */
module Translation {
  import opened Wrappers

  /** The translation service `translator.translate(text, src, dest).text`:
      `None` when the call raises. */
  type Translator = (string, string, string) -> Option<string>

  /** The source-language hint passed on every call. */
  const SourceHint := "auto"

  /** With translation off the text passes through; with it on, the service's answer is
      used, and a failing call falls back to the untranslated text. */
  function TranslateText(enabled: bool, translator: Translator, target: string, text: string): (r: string)
    ensures !enabled ==> r == text
    ensures enabled && translator(text, SourceHint, target).None? ==> r == text
    ensures enabled && translator(text, SourceHint, target).Some? ==> r == translator(text, SourceHint, target).value
  {
    if !enabled then text
    else
      match translator(text, SourceHint, target)
      case Some(t) => t
      case None => text
  }
}

=== FILE: wrappers.dfy ===
/** Python's `None`-or-value results, as an Option. */
module Wrappers {

  /** `None` models Python's `None` (or a call that raised and was caught). */
  datatype Option<+T> = None | Some(value: T) {

    /** Returns the wrapped value, or `default` when there is none. */
    function GetOr(default: T): T {
      match this
      case Some(v) => v
      case None => default
    }
  }
}
